=== FILE: README.md ===
# AVMedia playback tracker: a Dafny model

This project models `AVMedia`, the audio/video playback tracker of the AT Internet
Swift tracker SDK. The tracker turns player lifecycle signals into analytics events.
These signals are play, buffer start, start, resume, pause, stop, the seeks, the
heartbeat ticks, errors and fire-and-forget notices. To do this, the tracker keeps
three things:

- the media cursors (`previousCursor`, `currentCursor`);
- the wall-clock duration bookkeeping (`eventDuration`, `sessionDuration`,
  `startSessionTime`, `bufferTime`);
- a session identity and the name of the last position-bearing event.

It also owns one heartbeat timer slot. That slot is re-armed from two tables that map
minute offsets to interval lengths.

The model is functional. A `Media.Tracker` record holds the state. Every operation is a
pure function `(Tracker, now, arguments) -> Step(tracker, emitted events)`. The
modules are:

- `Wrappers`: `Option`.
- `Events`: loosely typed values, events, and the external sink. Handing events to the
  sink is `Deliver`: one `add` and one `send` per event, and an absent sink drops them.
- `Schedule`: the interval floors (5 s for play, 1 s for buffer), table clamping, the
  truncating minute count, the table lookup, and the `Timer` kinds.
- `Media`: the tracker state and every operation of the class.
- `Dispatch`: the generic `track` dispatcher. It also holds the `Command`/`Call`
  vocabulary for running sequences of calls (`Run`), and `Perform`, which runs calls
  and delivers the events to a sink.
- `Properties`: lemmas over single calls and over runs.

Impure inputs are made explicit:

- Wall-clock time is the `now: int` argument of each operation, in milliseconds since
  the epoch. One value is used per operation, even where the source reads the clock
  several times.
- The session UUID is a counter. A reset moves it to the next value, so a new session
  id always differs from every earlier one.
- A timer firing is simply one more call: the heartbeat operation of the pending kind.

Some consequences of the code are worth stating plainly:

- Session duration accrues whenever `updateDuration` runs, not only while playing.
  `bufferStart` and `bufferHeartbeat` accrue while not playing
  (AVMedia.swift:235, :295).
- After an accrual, the session duration equals the wall time since the session start,
  so a pause does not stop the session clock (`PauseDoesNotStopTheClock`).
- A heartbeat whose guard fails still starts session timing lazily
  (AVMedia.swift:209, :232, :253).
- The dispatcher does not route `av.rebuffer.start` or any fire-and-forget name. It turns
  them into bare events (`TrackRebufferStartIsBare`).
- A lone `av.seek.start` reads only `av_previous_position`
  (`TrackSeekStartIgnoresPosition`).

The source calls `DispatchQueue.sync` on the same serial queue from inside a block that
already runs on that queue. This happens when `track` calls the lifecycle methods, and
when `processSeek` calls `seekStart` (AVMedia.swift:125, :402, :504). As written, those
paths would deadlock. The model gives the intended sequential effect: the nested
operation runs in place.

## Model

| member | source | states |
|---|---|---|
| Events.SendEvents | ATInternetTracker/Sources/AVMedia.swift:555-563 | an empty batch changes nothing; otherwise the batch is appended to the sink and one flush is requested; an absent sink stays absent (events dropped) |
| Events.Deliver | ATInternetTracker/Sources/AVMedia.swift:555-563 | delivering an operation's events, one send per event, appends exactly those events in order and counts one flush each; an absent sink drops them |
| Events.DeliverAppend | ATInternetTracker/Sources/AVMedia.swift:555-563 | delivering two batches in turn equals delivering their concatenation |
| Schedule.Clamp | ATInternetTracker/Sources/AVMedia.swift:86-96 | the configured table has exactly the input keys plus 0, each value is max(v, floor), key 0 defaults to the floor, and every entry is at least the floor |
| Schedule.ClampLoop | ATInternetTracker/Sources/AVMedia.swift:86-96 | the entry-by-entry loop over the input dictionary, in any visiting order, builds exactly the clamped table |
| Schedule.ClampIdempotent | ATInternetTracker/Sources/AVMedia.swift:82-99 | configuring with an already configured table yields the same table |
| Schedule.MinutesElapsed | ATInternetTracker/Sources/AVMedia.swift:219 | the minute offset is the whole number of minutes elapsed, rounded toward zero for both signs of the difference |
| Schedule.Interval | ATInternetTracker/Sources/AVMedia.swift:219-224 | the next interval is the table entry for the exact elapsed minute if present, else the floor, and never below the floor for a well-formed table |
| Schedule.IntervalFallback | ATInternetTracker/Sources/AVMedia.swift:240-244 | an interval different from the floor can only come from a configured entry for the exact elapsed minute |
| Media.New | ATInternetTracker/Sources/AVMedia.swift:43-64 | a fresh tracker is valid, has the given identity and base properties, no previous event, zero cursors, durations, session start and buffer start, is not playing, has no pending timer, and has empty tables with both auto flags off |
| Media.SetHeartbeat | ATInternetTracker/Sources/AVMedia.swift:82-99 | an empty table leaves the tracker unchanged; a non-empty one replaces the play table with input keys plus 0, values max(v, 5), key 0 defaulting to 5, nothing else but the auto flag changes, and validity is kept |
| Media.SetHeartbeatInterval | ATInternetTracker/Sources/AVMedia.swift:78-80 | a single interval v replaces the play table with exactly {0: max(v, 5)} and sets the auto flag; nothing else changes |
| Media.SetBufferHeartbeat | ATInternetTracker/Sources/AVMedia.swift:105-122 | as SetHeartbeat for the buffer table with floor 1 |
| Media.SetBufferHeartbeatInterval | ATInternetTracker/Sources/AVMedia.swift:101-103 | a single interval v replaces the buffer table with exactly {0: max(v, 1)} and sets the buffer auto flag; nothing else changes |
| Media.NewWithIntervals | ATInternetTracker/Sources/AVMedia.swift:66-70 | construction with uniform intervals gives a valid tracker in the fresh state of init(events:), with tables {0: max(h, 5)} and {0: max(b, 1)} and both auto flags set |
| Media.NewWithTables | ATInternetTracker/Sources/AVMedia.swift:72-76 | construction with tables gives a valid tracker in the fresh state; an empty input table stays empty with its auto flag off; a non-empty one holds the input keys plus 0, each value max(v, floor), key 0 defaulting to the floor, with its auto flag set |
| Media.UpdateDuration | ATInternetTracker/Sources/AVMedia.swift:513-516 | afterwards the session duration is the time since the session start and exceeds the old one by exactly the new event duration; nothing else changes |
| Media.LazyStart | ATInternetTracker/Sources/AVMedia.swift:209 | the session start is set to now only when it has not started; otherwise the tracker is unchanged |
| Media.StopHeartbeatTimer | ATInternetTracker/Sources/AVMedia.swift:518-522 | no timer remains pending, cancelling with nothing pending is a no-op, and nothing else changes |
| Media.NextInterval | ATInternetTracker/Sources/AVMedia.swift:219-223 | the re-arm interval for a valid tracker is never below the floor of the heartbeat kind |
| Media.CreateEvent | ATInternetTracker/Sources/AVMedia.swift:532-553 | the event carries the base keys, session_id, the extras and, with options only, the four position keys; a position-bearing event reports the cursors, duration and the old previous event, then becomes the previous event; without options the tracker is unchanged; extras override every key |
| Media.Emit | ATInternetTracker/Sources/AVMedia.swift:532-563 | emitting one built event: its name, key set, session id, extras, inherited values and (with options) the reported cursors, duration and previous event; the previous event becomes the name only with options |
| Media.Heartbeat | ATInternetTracker/Sources/AVMedia.swift:207-228 | not playing: no event and only the lazy session start; playing: accrues, previous := old current, current := old current + new event duration, exactly one play timer armed at table[minutes since session start] or 5, one av.heartbeat event; the event carries the current session id, the caller's extras over every key and the inherited properties |
| Media.BufferHeartbeat | ATInternetTracker/Sources/AVMedia.swift:230-249 | playing: no event and only the lazy session start; otherwise accrues, buffer start set lazily, exactly one buffer timer at table[minutes since buffer start] or 1, one av.buffer.heartbeat event which becomes the previous event, cursors unchanged; the event carries the current session id, the extras and the inherited properties |
| Media.RebufferHeartbeat | ATInternetTracker/Sources/AVMedia.swift:251-272 | not playing: no event; playing: accrues, previous := current without moving current, exactly one rebuffer timer from the buffer table, one av.rebuffer.heartbeat event which becomes the previous event; the event carries the current session id, the extras and the inherited properties |
| Media.BufferBeatBody | ATInternetTracker/Sources/AVMedia.swift:237-246 | the shared re-arm: buffer start set lazily, one timer of the given kind from the buffer table, one position-bearing event; the event carries the current session id, the extras and the inherited properties |
| Media.Play | ATInternetTracker/Sources/AVMedia.swift:274-289 | both cursors at the position, zero event duration, not playing, no pending timer, session duration unchanged, one av.play event reporting them; the event carries the current session id, the extras and the inherited properties |
| Media.BufferStart | ATInternetTracker/Sources/AVMedia.swift:291-311 | accrues, moves the cursors, buffer start := now, playing state unchanged; if playing one 1 s rebuffer timer and av.rebuffer.start, else one 1 s buffer timer and av.buffer.start; the event carries the current session id, the extras and the inherited properties |
| Media.StartPlaying | ATInternetTracker/Sources/AVMedia.swift:321-325 | the tracker becomes playing with exactly one 5 s play timer pending and emits one position-bearing event of the given name built from that state |
| Media.PlaybackStart | ATInternetTracker/Sources/AVMedia.swift:313-327 | accrues, both cursors at the position, playing, exactly one 5 s play timer, one av.start event; the event carries the current session id, the extras and the inherited properties |
| Media.PlaybackResumed | ATInternetTracker/Sources/AVMedia.swift:329-343 | accrues, previous := old current, current := position, playing, exactly one 5 s play timer, one av.resume event; the event carries the current session id, the extras and the inherited properties |
| Media.PlaybackPaused | ATInternetTracker/Sources/AVMedia.swift:345-358 | accrues, moves the cursors, not playing, no pending timer, one av.pause event; the event carries the current session id, the extras and the inherited properties |
| Media.ResetState | ATInternetTracker/Sources/AVMedia.swift:524-530 | a new, larger session id; no previous event; cursors and event duration zero; tables, auto flags, timer and timing fields untouched |
| Media.PlaybackStopped | ATInternetTracker/Sources/AVMedia.swift:360-379 | one av.stop event with previous = old current, position = argument and the accrued duration under the old session id; afterwards all timing fields and cursors are 0, no previous event, not playing, no timer, a new session id, tables, auto flags and base props unchanged; the event also carries the caller's extras and the inherited properties |
| Media.SeekStart | ATInternetTracker/Sources/AVMedia.swift:401-418 | previous := current, current := old position; accrues if playing, else zero duration with the session untouched; one av.seek.start event; timer and playing state unchanged; the event carries the current session id, the extras and the inherited properties |
| Media.ProcessSeek | ATInternetTracker/Sources/AVMedia.swift:499-511 | exactly two events in order: av.seek.start at the old position, then the directional event with previous = old, position = new, duration 0, previous_event = av.seek.start; both events carry the current session id, the extras and the inherited properties |
| Media.SeekBackward | ATInternetTracker/Sources/AVMedia.swift:389-393 | two events ending with av.backward, cursors old then new, the second event reporting old, new, duration 0 and av.seek.start; both events carry the current session id, the extras and the inherited properties |
| Media.SeekForward | ATInternetTracker/Sources/AVMedia.swift:395-399 | two events ending with av.forward, cursors old then new, the second event reporting old, new, duration 0 and av.seek.start; both events carry the current session id, the extras and the inherited properties |
| Media.Seek | ATInternetTracker/Sources/AVMedia.swift:381-387 | the seek is the directional seek taken backward exactly when old > new and forward otherwise, so it carries that seek's whole contract: av.seek.start at the old position, then av.backward or av.forward from old to new, ending with the cursors at old then new; both events carry the current session id, the extras and the inherited properties |
| Media.Notify | ATInternetTracker/Sources/AVMedia.swift:420-497 | a fire-and-forget event leaves the tracker unchanged and carries only base props, session_id (the current session id unless the caller overrides it) and extras, each extra value as given and each other base value as inherited |
| Media.Error | ATInternetTracker/Sources/AVMedia.swift:432-437 | the message is stored under "error" in the tracker's properties and shown by the av.error event, which has no position fields and carries the current session id, the extras as given and the other base values as inherited |
| Dispatch.Track | ATInternetTracker/Sources/AVMedia.swift:124-205 | an unrecognised action leaves the tracker unchanged and emits one bare event of that name with the current session id and the extras; heartbeat names emit at most one event, every other name one or two, the last named after the action except av.buffer.start while playing; only av.stop renews the session; validity and duration reporting are kept |
| Dispatch.IntOption | ATInternetTracker/Sources/AVMedia.swift:134-137 | an integer option reads the value when present and an integer, else 0 |
| Dispatch.StringOption | ATInternetTracker/Sources/AVMedia.swift:195-199 | a string option reads the value when present and a string, else the empty string |
| Dispatch.Route | ATInternetTracker/Sources/AVMedia.swift:126-203 | the same guarantees once the named options have been read; av.error stores and shows the av_player_error message |
| Dispatch.RouteBeat | ATInternetTracker/Sources/AVMedia.swift:127-132 | each heartbeat name fires the callback of its own kind: one event of that name and a timer of that kind when the guard holds, no event otherwise |
| Dispatch.RouteLifecycle | ATInternetTracker/Sources/AVMedia.swift:133-168 | each lifecycle name emits its own event and moves the cursor to av_position: play and start put both cursors there, buffer.start, resume and pause move previous to the old current; start and resume leave the tracker playing, play and pause stop it with no timer; av.stop reports the old cursor and the position and renews the session |
| Dispatch.RouteSeek | ATInternetTracker/Sources/AVMedia.swift:169-194 | backward and forward emit av.seek.start then their own event and end with the cursors at av_previous_position then av_position; a lone seek.start moves the cursor to av_previous_position |
| Dispatch.Fire | ATInternetTracker/Sources/AVMedia.swift:207-272 | a firing heartbeat callback whose guard holds emits exactly one event and leaves exactly one pending timer of its own kind; it never changes the session id and keeps validity |
| Dispatch.Run | ATInternetTracker/Sources/AVMedia.swift:513-516 | along any run validity is kept (each table empty or holding key 0 with every entry at or above its floor, any pending timer at or above its floor and matching the playing state, no session duration before the session starts), the session id grows by one per stop, and within a session the session duration grows by exactly the sum of the durations the emitted events report |
| Dispatch.StopsAreCounted | ATInternetTracker/Sources/AVMedia.swift:360-379 | a run that holds a session-ending call counts at least one stop |
| Dispatch.Perform | ATInternetTracker/Sources/AVMedia.swift:555-563 | a run against a sink leaves the sink holding exactly the emitted events, in order, after what it held; an absent sink stays absent |
| Properties.PendingTimerFiresAndRearms | ATInternetTracker/Sources/AVMedia.swift:207-272 | a pending heartbeat, when it fires, passes its guard, emits one event and leaves exactly one timer of its own kind, at or above the floor |
| Properties.IdleHeartbeatIsNoOp | ATInternetTracker/Sources/AVMedia.swift:207-228 | when not playing, the play heartbeat emits nothing and schedules nothing |
| Properties.PauseDoesNotStopTheClock | ATInternetTracker/Sources/AVMedia.swift:329-358 | after a pause and a resume, the session duration is the wall time since the session start and the resume reports the whole gap |
| Properties.StopThenPlayStartsNewSession | ATInternetTracker/Sources/AVMedia.swift:360-379 | stop then play reports the two events under different session ids, and the play event has an empty previous event |
| Properties.StartThenHeartbeat | ATInternetTracker/Sources/AVMedia.swift:313-327 | with table {0: 5}, start at 1000 then heartbeat: the cursor advances by the elapsed wall time, the previous cursor is 1000, one 5 s timer is armed |
| Properties.TrackDefaultsPosition | ATInternetTracker/Sources/AVMedia.swift:134-137 | a missing or non-integer av_position behaves as 0 |
| Properties.TrackDefaultsPreviousPosition | ATInternetTracker/Sources/AVMedia.swift:170-174 | a missing or non-integer av_previous_position behaves as 0 |
| Properties.TrackDefaultsError | ATInternetTracker/Sources/AVMedia.swift:195-200 | a missing or non-string av_player_error behaves as the empty message |
| Properties.TrackSeekStartIgnoresPosition | ATInternetTracker/Sources/AVMedia.swift:189-194 | av.seek.start ignores av_position and seeks from av_previous_position |
| Properties.TrackRebufferStartIsBare | ATInternetTracker/Sources/AVMedia.swift:201-202 | av.rebuffer.start is not routed: the tracker is unchanged and the event is bare |
| Properties.TrackRoutesHeartbeats | ATInternetTracker/Sources/AVMedia.swift:126-132 | av.heartbeat, av.buffer.heartbeat and av.rebuffer.heartbeat reach heartbeat, bufferHeartbeat and rebufferHeartbeat |
| Properties.TrackRoutesLifecycle | ATInternetTracker/Sources/AVMedia.swift:133-150 | av.play, av.buffer.start and av.start reach play, bufferStart and playbackStart at av_position |
| Properties.TrackRoutesTransitions | ATInternetTracker/Sources/AVMedia.swift:151-168 | av.resume, av.pause and av.stop reach playbackResumed, playbackPaused and playbackStopped at av_position |
| Properties.TrackRoutesSeeks | ATInternetTracker/Sources/AVMedia.swift:169-188 | av.backward and av.forward reach seekBackward and seekForward from av_previous_position to av_position |
| Properties.TrackRoutesSeekStart | ATInternetTracker/Sources/AVMedia.swift:189-194 | av.seek.start reaches seekStart from av_previous_position |
| Properties.TrackRoutesError | ATInternetTracker/Sources/AVMedia.swift:195-200 | av.error reaches error with the av_player_error message |
| Properties.StopRenewsSession | ATInternetTracker/Sources/AVMedia.swift:360-379 | a run that contains a stop, direct or through track, ends under a different session id |

## Left out

- Serialisation on the `AVSynchronizer` dispatch queue is not modelled. Calls are plain
  sequential transitions, and the nested `sync` calls are treated as their intended
  in-place effect.
- Foundation `Timer` scheduling and firing is not modelled. The pending timer is the
  `Option<Timer>` slot (kind and interval in seconds), and a firing is an explicit
  heartbeat call.
- The wall clock (`Date().timeIntervalSince1970 * 1000`, a floating-point conversion) is
  replaced by the integer `now`. Reading the clock several times within one operation
  collapses to one reading.
- Swift `Int` overflow traps are not modelled: all arithmetic is on unbounded integers.
- `Foundation.UUID` is not modelled. The session id is a natural-number counter, emitted
  as an integer property instead of a UUID string.
- `getProps()` and `player.set` belong to `RequiredPropertiesDataObject`, which is not
  part of this model. The inherited properties are the opaque map `Tracker.props`.
- Media.Error: the error message is stored under the key `error` of those properties.
  How the player sub-object is flattened into the event is not modelled.
- A nil `extraProps` is modelled as the empty map, which has the same effect.
- `isPlaybackStartAlreadyCalled` is declared but never read or written, so it is not
  modelled.
- Properties.StartThenHeartbeat: assumes a positive start instant, because 0 is the
  tracker's own "not started" marker.
- Media.SeekBackward: its own contract states the event count, the direction, the cursors, the second
  event's payload and what both events carry, but not the first event's reported positions and
  duration. Those are stated on Media.ProcessSeek, which it calls.
- Media.SeekForward: its own contract states the event count, the direction, the cursors, the second
  event's payload and what both events carry, but not the first event's reported positions and
  duration. Those are stated on Media.ProcessSeek, which it calls.
- The `Events` buffering, batching and transport behind `add`/`send` are not part of
  this model. The sink records the added events and counts flush requests.
- TransactionConfirmation.swift and GeneratedEvents.swift are not part of this model.
  They are flat property-bag wrappers whose behaviour lives in classes not covered here.

=== FILE: dispatch.dfy ===
/**
  The generic action dispatcher, and runs of calls against a tracker and its sink.
  A timer firing is one more call: the callback of the pending kind, at the
  instant it fires.
 */
module Dispatch {
  import opened Wrappers
  import opened Events
  import opened Schedule
  import opened Media

  /** An integer option, 0 when absent or not an integer. */
  function IntOption(options: Props, key: string): (v: int)
    ensures key in options && options[key].IntV? ==> v == options[key].i
    ensures !(key in options && options[key].IntV?) ==> v == 0
  {
    if key in options && options[key].IntV? then options[key].i else 0
  }

  /** A string option, empty when absent or not a string. */
  function StringOption(options: Props, key: string): (v: string)
    ensures key in options && options[key].StrV? ==> v == options[key].s
    ensures !(key in options && options[key].StrV?) ==> v == ""
  {
    if key in options && options[key].StrV? then options[key].s else ""
  }

  /** The action names the dispatcher routes to a dedicated operation. */
  const KnownActions: set<string> := {
    "av.heartbeat", "av.buffer.heartbeat", "av.rebuffer.heartbeat", "av.play", "av.buffer.start",
    "av.start", "av.resume", "av.pause", "av.stop", "av.backward", "av.forward", "av.seek.start", "av.error"
  }

  /** The action names that invoke a heartbeat callback, which emits nothing when its guard fails. */
  predicate IsBeatAction(action: string)
  {
    action in {"av.heartbeat", "av.buffer.heartbeat", "av.rebuffer.heartbeat"}
  }

  /**
    Routes an action name with its option bag; unknown names become a bare event.
    The `Properties.TrackRoutes*` lemmas name the operation each known name reaches.
   */
  function Track(t: Tracker, now: int, action: string, options: Props, extra: Props): (r: Step)
    ensures action !in KnownActions ==> && r.t == t && |r.emitted| == 1 && r.emitted[0].name == action
                                        && r.emitted[0].props.Keys == t.props.Keys + {"session_id"} + extra.Keys
                                        && Shows(r.emitted[0], extra, "session_id", IntV(t.sessionId))
                                        && (forall k :: k in extra ==> r.emitted[0].props[k] == extra[k])
    ensures IsBeatAction(action) ==> |r.emitted| <= 1
    ensures !IsBeatAction(action) ==> 1 <= |r.emitted| <= 2
    ensures !IsBeatAction(action) && action != "av.buffer.start" ==> r.emitted[|r.emitted| - 1].name == action
    ensures action == "av.stop" ==> r.t.sessionId > t.sessionId
    ensures action != "av.stop" ==> r.t.sessionId == t.sessionId
    ensures Valid(t) ==> Valid(r.t)
    ensures action != "av.stop" ==> AccrualReported(t, extra, r)
  {
    Route(t, now, action, IntOption(options, "av_position"), IntOption(options, "av_previous_position"),
          StringOption(options, "av_player_error"), extra)
  }

  /** The routing of the dispatcher once the named options have been read. */
  function Route(t: Tracker, now: int, action: string, position: int, previous: int, message: string, extra: Props): (r: Step)
    ensures action !in KnownActions ==> r == Emit(t, action, false, extra)
    ensures IsBeatAction(action) ==> |r.emitted| <= 1
    ensures !IsBeatAction(action) ==> 1 <= |r.emitted| <= 2
    ensures !IsBeatAction(action) && action != "av.buffer.start" ==> r.emitted[|r.emitted| - 1].name == action
    ensures action == "av.error" ==> r.t.props == t.props["error" := StrV(message)] && Shows(r.emitted[0], extra, "error", StrV(message))
    ensures action == "av.stop" ==> r.t.sessionId > t.sessionId
    ensures action != "av.stop" ==> r.t.sessionId == t.sessionId
    ensures Valid(t) ==> Valid(r.t)
    ensures action != "av.stop" ==> AccrualReported(t, extra, r)
  {
    if IsBeatAction(action) then RouteBeat(t, now, action, extra)
    else if action in {"av.play", "av.buffer.start", "av.start", "av.resume", "av.pause", "av.stop"} then RouteLifecycle(t, now, action, position, extra)
    else if action in {"av.backward", "av.forward", "av.seek.start"} then RouteSeek(t, now, action, position, previous, extra)
    else if action == "av.error" then Error(t, message, extra)
    else
      var bare := Emit(t, action, false, extra);
      TotalDurationOfOne(bare.emitted[0]);
      bare
  }

  /** The heartbeat names invoke the callback of their kind, which acts only when its guard holds. */
  function RouteBeat(t: Tracker, now: int, action: string, extra: Props): (r: Step)
    requires IsBeatAction(action)
    ensures action == "av.heartbeat" ==> if t.isPlaying then |r.emitted| == 1 && r.emitted[0].name == action && r.t.timer.Some? && r.t.timer.value.kind == PlayBeat
                                         else r.emitted == []
    ensures action == "av.buffer.heartbeat" ==> if !t.isPlaying then |r.emitted| == 1 && r.emitted[0].name == action && r.t.timer.Some? && r.t.timer.value.kind == BufferBeat
                                                else r.emitted == []
    ensures action == "av.rebuffer.heartbeat" ==> if t.isPlaying then |r.emitted| == 1 && r.emitted[0].name == action && r.t.timer.Some? && r.t.timer.value.kind == RebufferBeat
                                                  else r.emitted == []
    ensures r.t.sessionId == t.sessionId && |r.emitted| <= 1
    ensures Valid(t) ==> Valid(r.t)
    ensures AccrualReported(t, extra, r)
  {
    if action == "av.heartbeat" then Heartbeat(t, now, extra)
    else if action == "av.buffer.heartbeat" then BufferHeartbeat(t, now, extra)
    else RebufferHeartbeat(t, now, extra)
  }

  /** The lifecycle names read `av_position` and move the cursor there. */
  function RouteLifecycle(t: Tracker, now: int, action: string, position: int, extra: Props): (r: Step)
    requires action in {"av.play", "av.buffer.start", "av.start", "av.resume", "av.pause", "av.stop"}
    ensures |r.emitted| == 1 && (action != "av.buffer.start" ==> r.emitted[0].name == action)
    ensures action == "av.play" ==> r.t.previousCursor == position && r.t.currentCursor == position && !r.t.isPlaying && r.t.timer == None
    ensures action == "av.buffer.start" ==> && r.t.previousCursor == t.currentCursor && r.t.currentCursor == position && r.t.bufferTime == now
                                            && r.emitted[0].name == (if t.isPlaying then "av.rebuffer.start" else action)
    ensures action == "av.start" ==> r.t.previousCursor == position && r.t.currentCursor == position && r.t.isPlaying
    ensures action == "av.resume" ==> r.t.previousCursor == t.currentCursor && r.t.currentCursor == position && r.t.isPlaying
    ensures action == "av.pause" ==> r.t.previousCursor == t.currentCursor && r.t.currentCursor == position && !r.t.isPlaying && r.t.timer == None
    ensures action == "av.stop" ==> && Shows(r.emitted[0], extra, "previous_position", IntV(t.currentCursor))
                                    && Shows(r.emitted[0], extra, "position", IntV(position))
                                    && r.t.sessionId > t.sessionId
    ensures action != "av.stop" ==> r.t.sessionId == t.sessionId && AccrualReported(t, extra, r)
    ensures Valid(t) ==> Valid(r.t)
  {
    if action == "av.play" then Play(t, now, position, extra)
    else if action == "av.buffer.start" then BufferStart(t, now, position, extra)
    else if action == "av.start" then PlaybackStart(t, now, position, extra)
    else if action == "av.resume" then PlaybackResumed(t, now, position, extra)
    else if action == "av.pause" then PlaybackPaused(t, now, position, extra)
    else PlaybackStopped(t, now, position, extra)
  }

  /** The seek names read `av_previous_position` as the start of the seek; the directional ones land on `av_position`. */
  function RouteSeek(t: Tracker, now: int, action: string, position: int, previous: int, extra: Props): (r: Step)
    requires action in {"av.backward", "av.forward", "av.seek.start"}
    ensures r.emitted != [] && r.emitted[|r.emitted| - 1].name == action && r.emitted[0].name == "av.seek.start"
    ensures action != "av.seek.start" ==> |r.emitted| == 2 && r.t.previousCursor == previous && r.t.currentCursor == position
    ensures action == "av.seek.start" ==> |r.emitted| == 1 && r.t.previousCursor == t.currentCursor && r.t.currentCursor == previous
    ensures r.t.sessionId == t.sessionId
    ensures Valid(t) ==> Valid(r.t)
    ensures AccrualReported(t, extra, r)
  {
    if action == "av.backward" then SeekBackward(t, now, previous, position, extra)
    else if action == "av.forward" then SeekForward(t, now, previous, position, extra)
    else SeekStart(t, now, previous, extra)
  }

  /** Heartbeat configuration calls. */
  datatype Setting =
    | PlayTable(table: map<int, int>)
    | BufferTable(bufferTable: map<int, int>)
    | PlayInterval(seconds: int)
    | BufferInterval(bufferSeconds: int)

  /** The lifecycle calls that take one cursor position. */
  datatype Transition = PlayAt | BufferStartAt | StartAt | ResumeAt | PauseAt | StopAt

  /** The seek calls. */
  datatype SeekCall =
    | SeekTo(oldPosition: int, newPosition: int)
    | SeekBackwardTo(oldPosition: int, newPosition: int)
    | SeekForwardTo(oldPosition: int, newPosition: int)
    | SeekStartFrom(startPosition: int)

  /** Every entry point of the tracker; a `Tick` is a heartbeat callback firing. */
  datatype Command =
    | Configure(setting: Setting)
    | Tick(kind: Kind)
    | Lifecycle(transition: Transition, position: int)
    | Seeking(seek: SeekCall)
    | Note(notice: Notice)
    | PlayerError(message: string)
    | TrackAction(action: string, options: Props)

  /** One call: the command, the instant it runs at, and the caller's extra properties. */
  datatype Call = Call(now: int, command: Command, extra: Props)

  /** True for the calls that end the session. */
  predicate Stops(c: Command)
  {
    (c.Lifecycle? && c.transition == StopAt) || (c.TrackAction? && c.action == "av.stop")
  }

  function Configured(t: Tracker, s: Setting): (r: Tracker)
    ensures r.sessionId == t.sessionId && r.sessionDuration == t.sessionDuration && r.props == t.props
    ensures Valid(t) ==> Valid(r)
  {
    match s
    case PlayTable(table) => SetHeartbeat(t, table)
    case BufferTable(table) => SetBufferHeartbeat(t, table)
    case PlayInterval(seconds) => SetHeartbeatInterval(t, seconds)
    case BufferInterval(seconds) => SetBufferHeartbeatInterval(t, seconds)
  }

  /** The callback a pending timer of kind `k` invokes. */
  function Fire(t: Tracker, now: int, k: Kind, extra: Props): (r: Step)
    ensures r.t.sessionId == t.sessionId && |r.emitted| <= 1
    ensures Valid(t) ==> Valid(r.t)
    ensures AccrualReported(t, extra, r)
    ensures GuardHolds(k, t.isPlaying) ==> |r.emitted| == 1 && r.t.timer.Some? && r.t.timer.value.kind == k
  {
    match k
    case PlayBeat => Heartbeat(t, now, extra)
    case BufferBeat => BufferHeartbeat(t, now, extra)
    case RebufferBeat => RebufferHeartbeat(t, now, extra)
  }

  function Transit(t: Tracker, now: int, tr: Transition, position: int, extra: Props): (r: Step)
    ensures r.t.sessionId == t.sessionId + (if tr == StopAt then 1 else 0) && |r.emitted| == 1
    ensures Valid(t) ==> Valid(r.t)
    ensures tr != StopAt ==> AccrualReported(t, extra, r)
  {
    match tr
    case PlayAt => Play(t, now, position, extra)
    case BufferStartAt => BufferStart(t, now, position, extra)
    case StartAt => PlaybackStart(t, now, position, extra)
    case ResumeAt => PlaybackResumed(t, now, position, extra)
    case PauseAt => PlaybackPaused(t, now, position, extra)
    case StopAt => PlaybackStopped(t, now, position, extra)
  }

  function SeekBy(t: Tracker, now: int, s: SeekCall, extra: Props): (r: Step)
    ensures r.t.sessionId == t.sessionId && 1 <= |r.emitted| <= 2
    ensures Valid(t) ==> Valid(r.t)
    ensures AccrualReported(t, extra, r)
  {
    match s
    case SeekTo(oldPosition, newPosition) => Seek(t, now, oldPosition, newPosition, extra)
    case SeekBackwardTo(oldPosition, newPosition) => SeekBackward(t, now, oldPosition, newPosition, extra)
    case SeekForwardTo(oldPosition, newPosition) => SeekForward(t, now, oldPosition, newPosition, extra)
    case SeekStartFrom(oldPosition) => SeekStart(t, now, oldPosition, extra)
  }

  /** Performs one call. */
  function Apply(t: Tracker, c: Call): (r: Step)
    ensures r.t.sessionId == t.sessionId + (if Stops(c.command) then 1 else 0)
    ensures |r.emitted| <= 2
    ensures Valid(t) ==> Valid(r.t)
    ensures !Stops(c.command) ==> AccrualReported(t, c.extra, r)
  {
    match c.command
    case Configure(setting) =>
      var r := Step(Configured(t, setting), []);
      assert TotalDuration(r.emitted) == 0;
      r
    case Tick(k) => Fire(t, c.now, k, c.extra)
    case Lifecycle(tr, position) => Transit(t, c.now, tr, position, c.extra)
    case Seeking(s) => SeekBy(t, c.now, s, c.extra)
    case Note(n) => Notify(t, n, c.extra)
    case PlayerError(message) => Error(t, message, c.extra)
    case TrackAction(action, options) => Track(t, c.now, action, options, c.extra)
  }

  /** The number of session-ending calls in a run. */
  function CountStops(calls: seq<Call>): nat
  {
    if |calls| == 0 then 0
    else (if Stops(calls[0].command) then 1 else 0) + CountStops(calls[1..])
  }

  /** No call of the run ends the session or supplies its own "duration". */
  predicate WithinSession(calls: seq<Call>)
  {
    forall i :: 0 <= i < |calls| ==> !Stops(calls[i].command) && "duration" !in calls[i].extra
  }

  /**
    Performs calls in order, collecting every emitted event in order. Along any
    run the invariant holds, each stop renews the session identity once, and
    within a session the session duration grows by exactly the durations the
    emitted events report: it is the running sum of the event durations.
   */
  function Run(t: Tracker, calls: seq<Call>): (r: Step)
    ensures r.t.sessionId == t.sessionId + CountStops(calls)
    ensures |r.emitted| <= 2 * |calls|
    ensures Valid(t) ==> Valid(r.t)
    ensures WithinSession(calls) && "duration" !in t.props ==> ReportsAccrual(t, r)
    decreases |calls|
  {
    if |calls| == 0 then Step(t, [])
    else
      var first := Apply(t, calls[0]);
      assert WithinSession(calls) ==> WithinSession(calls[1..]) by {
        if WithinSession(calls) {
          forall i | 0 <= i < |calls[1..]|
            ensures !Stops(calls[1..][i].command) && "duration" !in calls[1..][i].extra
          {
            assert calls[1..][i] == calls[i + 1];
          }
        }
      }
      var rest := Run(first.t, calls[1..]);
      TotalDurationAppend(first.emitted, rest.emitted);
      Step(rest.t, first.emitted + rest.emitted)
  }

  /** A run that contains a session-ending call counts at least one stop. */
  lemma {:induction false} StopsAreCounted(calls: seq<Call>, i: nat)
    requires i < |calls| && Stops(calls[i].command)
    ensures CountStops(calls) >= 1
    decreases i
  {
    if i > 0 {
      assert calls[1..][i - 1] == calls[i];
      StopsAreCounted(calls[1..], i - 1);
    }
  }

  /** A tracker wired to its event sink. */
  datatype Instrumented = Instrumented(tracker: Tracker, sink: Sink)

  /** Performs calls and hands every emitted event to the sink, one flush per event. */
  function Perform(m: Instrumented, calls: seq<Call>): (r: Instrumented)
    ensures r.tracker == Run(m.tracker, calls).t
    ensures m.sink.NoSink? ==> r.sink.NoSink?
    ensures m.sink.Queue? ==> r.sink.Queue? && r.sink.added == m.sink.added + Run(m.tracker, calls).emitted
  {
    var s := Run(m.tracker, calls);
    Instrumented(s.t, Deliver(m.sink, s.emitted))
  }
}

=== FILE: events.dfy ===
/**
  Loosely typed property values, analytics events and the external event sink.
  The sink is the `Events` collaborator of the tracker: it buffers events (`add`)
  and is asked to deliver them (`send`); an absent sink silently drops events.
 */
module Events {

  /** The `Any` values found in option bags and property bags. */
  datatype Value = IntV(i: int) | StrV(s: string) | BoolV(b: bool)

  type Props = map<string, Value>

  /** A named event carrying its property bag. */
  datatype Event = Event(name: string, props: Props)

  /** The external sink: absent, or a buffer of added events plus a count of flush requests. */
  datatype Sink = NoSink | Queue(added: seq<Event>, sends: nat)

  /** One `sendEvents` call: add every event of the batch, then request one flush. */
  function SendEvents(sink: Sink, batch: seq<Event>): (r: Sink)
    ensures sink.NoSink? ==> r.NoSink?
    ensures |batch| == 0 ==> r == sink
    ensures sink.Queue? && |batch| > 0 ==> r.Queue? && r.added == sink.added + batch && r.sends == sink.sends + 1
  {
    if |batch| == 0 then sink
    else match sink
      case NoSink => NoSink
      case Queue(added, sends) => Queue(added + batch, sends + 1)
  }

  /**
    Hands the events an operation produced to the sink, one `sendEvents` call
    per event, in order: every emission of the tracker is a single-event batch.
   */
  function Deliver(sink: Sink, emitted: seq<Event>): (r: Sink)
    ensures sink.NoSink? ==> r.NoSink?
    ensures sink.Queue? ==> r.Queue? && r.added == sink.added + emitted && r.sends == sink.sends + |emitted|
    decreases |emitted|
  {
    if |emitted| == 0 then sink
    else
      var r := Deliver(SendEvents(sink, [emitted[0]]), emitted[1..]);
      assert sink.Queue? ==> sink.added + emitted == sink.added + [emitted[0]] + emitted[1..];
      r
  }

  /** Delivering two batches one after the other is delivering their concatenation. */
  lemma DeliverAppend(sink: Sink, a: seq<Event>, b: seq<Event>)
    ensures Deliver(Deliver(sink, a), b) == Deliver(sink, a + b)
  {
  }
}

=== FILE: media.dfy ===
/**
  The media-playback tracker: session and duration bookkeeping, the heartbeat
  timer slot and event construction. Every operation is a pure transition that
  takes the wall-clock instant `now` (milliseconds) and returns the new tracker
  together with the events it produced, in order.
 */
module Media {
  import opened Wrappers
  import opened Events
  import opened Schedule

  datatype Tracker = Tracker(
    sessionId: nat,             // abstract session identity; a reset draws the next one
    previousEvent: string,      // name of the last position-bearing event
    previousCursor: int,        // media-time milliseconds
    currentCursor: int,
    eventDuration: int,         // wall-clock milliseconds since the previous accrual
    sessionDuration: int,       // running total of event durations
    startSessionTime: int,      // 0 means the session has not started accruing
    bufferTime: int,            // 0 means no buffering episode has begun
    heartbeatTable: map<int, int>,
    bufferHeartbeatTable: map<int, int>,
    isPlaying: bool,
    autoHeartbeat: bool,
    autoBufferHeartbeat: bool,
    timer: Option<Timer>,       // the single pending heartbeat
    props: Props)               // the inherited property bag every event starts from

  /** A tracker together with the events an operation emitted. */
  datatype Step = Step(t: Tracker, emitted: seq<Event>)

  /** A built event and the tracker after building it. */
  datatype Built = Built(t: Tracker, event: Event)

  /** The keys only position-bearing events carry. */
  const OptionKeys: set<string> := {"previous_position", "position", "duration", "previous_event"}

  /** True when a pending timer's callback will pass its own playing/not-playing guard. */
  predicate GuardHolds(k: Kind, isPlaying: bool)
  {
    match k
    case PlayBeat => isPlaying
    case BufferBeat => !isPlaying
    case RebufferBeat => isPlaying
  }

  /** The invariant every reachable tracker keeps. */
  predicate Valid(t: Tracker)
  {
    && WellFormed(t.heartbeatTable, MinHeartbeatDuration)
    && WellFormed(t.bufferHeartbeatTable, MinBufferHeartbeatDuration)
    && (t.timer.Some? ==> t.timer.value.seconds >= Floor(t.timer.value.kind) && GuardHolds(t.timer.value.kind, t.isPlaying))
    && (t.startSessionTime == 0 ==> t.sessionDuration == 0)
  }

  /** Configuration and identity that a lifecycle operation never touches. */
  predicate SameConfig(t: Tracker, r: Tracker)
  {
    && r.sessionId == t.sessionId
    && r.heartbeatTable == t.heartbeatTable
    && r.bufferHeartbeatTable == t.bufferHeartbeatTable
    && r.autoHeartbeat == t.autoHeartbeat
    && r.autoBufferHeartbeat == t.autoBufferHeartbeat
    && r.props == t.props
  }

  /** The session start after the lazy start at `now`. */
  function StartOf(t: Tracker, now: int): int
  {
    if t.startSessionTime == 0 then now else t.startSessionTime
  }

  /** `r` accrued duration at `now`: the session duration is the time since the session start, grown by the new event duration. */
  predicate Accrued(t: Tracker, r: Tracker, now: int)
  {
    && r.startSessionTime == StartOf(t, now)
    && r.sessionDuration == now - r.startSessionTime
    && r.sessionDuration == t.sessionDuration + r.eventDuration
  }

  /** The value an event shows under `key`: the extra property when the caller supplied one, else `v`. */
  predicate Shows(e: Event, extra: Props, key: string, v: Value)
  {
    key in e.props && e.props[key] == (if key in extra then extra[key] else v)
  }

  /** A position-bearing event reports these cursors, duration and preceding event name. */
  predicate Reports(e: Event, extra: Props, previous: int, position: int, duration: int, previousEvent: string)
  {
    && Shows(e, extra, "previous_position", IntV(previous))
    && Shows(e, extra, "position", IntV(position))
    && Shows(e, extra, "duration", IntV(duration))
    && Shows(e, extra, "previous_event", StrV(previousEvent))
  }

  /** The duration an event reports, 0 for events without one. */
  function DurationOf(e: Event): int
  {
    if "duration" in e.props && e.props["duration"].IntV? then e.props["duration"].i else 0
  }

  /** The sum of the durations a sequence of events reports. */
  function TotalDuration(events: seq<Event>): int
  {
    if |events| == 0 then 0 else DurationOf(events[0]) + TotalDuration(events[1..])
  }

  lemma {:induction false} TotalDurationAppend(a: seq<Event>, b: seq<Event>)
    ensures TotalDuration(a + b) == TotalDuration(a) + TotalDuration(b)
    decreases |a|
  {
    if |a| == 0 {
      assert a + b == b;
    } else {
      assert (a + b)[1..] == a[1..] + b;
      TotalDurationAppend(a[1..], b);
    }
  }

  lemma TotalDurationOfOne(e: Event)
    ensures TotalDuration([e]) == DurationOf(e)
  {
  }

  lemma TotalDurationOfTwo(e0: Event, e1: Event)
    ensures TotalDuration([e0, e1]) == DurationOf(e0) + DurationOf(e1)
  {
    assert [e0, e1][1..] == [e1];
    TotalDurationOfOne(e1);
  }

  /** The events of a step report exactly the time the step added to the session duration. */
  predicate ReportsAccrual(t: Tracker, r: Step)
  {
    r.t.sessionDuration == t.sessionDuration + TotalDuration(r.emitted) && "duration" !in r.t.props
  }

  /** The zero state of a newly built tracker: no session timing, no cursors, no previous event, no pending heartbeat. */
  predicate Fresh(t: Tracker, sessionId: nat, props: Props)
  {
    && t.sessionId == sessionId && t.props == props && t.previousEvent == ""
    && t.previousCursor == 0 && t.currentCursor == 0 && t.eventDuration == 0 && t.sessionDuration == 0
    && t.startSessionTime == 0 && t.bufferTime == 0 && !t.isPlaying && t.timer == None
  }

  /** A fresh tracker with empty heartbeat tables. */
  function New(sessionId: nat, props: Props): (t: Tracker)
    ensures Valid(t) && Fresh(t, sessionId, props)
    ensures t.heartbeatTable == map[] && t.bufferHeartbeatTable == map[]
    ensures !t.autoHeartbeat && !t.autoBufferHeartbeat
  {
    Tracker(sessionId, "", 0, 0, 0, 0, 0, 0, map[], map[], false, false, false, None, props)
  }

  /** Replaces the play heartbeat table; an empty configuration is ignored. */
  function SetHeartbeat(t: Tracker, table: map<int, int>): (r: Tracker)
    ensures table == map[] ==> r == t
    ensures table != map[] ==> r.heartbeatTable.Keys == table.Keys + {0}
    ensures table != map[] ==> forall k :: k in table ==> r.heartbeatTable[k] == Max(table[k], MinHeartbeatDuration)
    ensures table != map[] && 0 !in table ==> r.heartbeatTable[0] == MinHeartbeatDuration
    ensures table != map[] ==> r == t.(heartbeatTable := r.heartbeatTable, autoHeartbeat := true)
    ensures Valid(t) ==> Valid(r)
  {
    if table == map[] then t
    else t.(autoHeartbeat := true, heartbeatTable := Clamp(table, MinHeartbeatDuration))
  }

  /** A single uniform play heartbeat interval is the table `{0: seconds}`. */
  function SetHeartbeatInterval(t: Tracker, seconds: int): (r: Tracker)
    ensures r == t.(heartbeatTable := map[0 := Max(seconds, MinHeartbeatDuration)], autoHeartbeat := true)
    ensures Valid(t) ==> Valid(r)
  {
    var table := map[0 := seconds];
    assert table != map[] by { assert 0 in table; }
    var r := SetHeartbeat(t, table);
    assert r.heartbeatTable.Keys == {0};
    r
  }

  /** Replaces the buffer heartbeat table; an empty configuration is ignored. */
  function SetBufferHeartbeat(t: Tracker, table: map<int, int>): (r: Tracker)
    ensures table == map[] ==> r == t
    ensures table != map[] ==> r.bufferHeartbeatTable.Keys == table.Keys + {0}
    ensures table != map[] ==> forall k :: k in table ==> r.bufferHeartbeatTable[k] == Max(table[k], MinBufferHeartbeatDuration)
    ensures table != map[] && 0 !in table ==> r.bufferHeartbeatTable[0] == MinBufferHeartbeatDuration
    ensures table != map[] ==> r == t.(bufferHeartbeatTable := r.bufferHeartbeatTable, autoBufferHeartbeat := true)
    ensures Valid(t) ==> Valid(r)
  {
    if table == map[] then t
    else t.(autoBufferHeartbeat := true, bufferHeartbeatTable := Clamp(table, MinBufferHeartbeatDuration))
  }

  /** A single uniform buffer heartbeat interval is the table `{0: seconds}`. */
  function SetBufferHeartbeatInterval(t: Tracker, seconds: int): (r: Tracker)
    ensures r == t.(bufferHeartbeatTable := map[0 := Max(seconds, MinBufferHeartbeatDuration)], autoBufferHeartbeat := true)
    ensures Valid(t) ==> Valid(r)
  {
    var table := map[0 := seconds];
    assert table != map[] by { assert 0 in table; }
    var r := SetBufferHeartbeat(t, table);
    assert r.bufferHeartbeatTable.Keys == {0};
    r
  }

  /** Construction with uniform intervals. */
  function NewWithIntervals(sessionId: nat, props: Props, heartbeat: int, bufferHeartbeat: int): (t: Tracker)
    ensures Valid(t) && Fresh(t, sessionId, props)
    ensures t.heartbeatTable == map[0 := Max(heartbeat, MinHeartbeatDuration)]
    ensures t.bufferHeartbeatTable == map[0 := Max(bufferHeartbeat, MinBufferHeartbeatDuration)]
    ensures t.autoHeartbeat && t.autoBufferHeartbeat
  {
    SetBufferHeartbeatInterval(SetHeartbeatInterval(New(sessionId, props), heartbeat), bufferHeartbeat)
  }

  /** Construction with minute-offset tables. */
  function NewWithTables(sessionId: nat, props: Props, heartbeat: map<int, int>, bufferHeartbeat: map<int, int>): (t: Tracker)
    ensures Valid(t) && Fresh(t, sessionId, props)
    ensures heartbeat == map[] ==> t.heartbeatTable == map[] && !t.autoHeartbeat
    ensures heartbeat != map[] ==> && t.heartbeatTable.Keys == heartbeat.Keys + {0} && t.autoHeartbeat
                                   && (forall k :: k in heartbeat ==> t.heartbeatTable[k] == Max(heartbeat[k], MinHeartbeatDuration))
                                   && (0 !in heartbeat ==> t.heartbeatTable[0] == MinHeartbeatDuration)
    ensures bufferHeartbeat == map[] ==> t.bufferHeartbeatTable == map[] && !t.autoBufferHeartbeat
    ensures bufferHeartbeat != map[] ==> && t.bufferHeartbeatTable.Keys == bufferHeartbeat.Keys + {0} && t.autoBufferHeartbeat
                                         && (forall k :: k in bufferHeartbeat ==> t.bufferHeartbeatTable[k] == Max(bufferHeartbeat[k], MinBufferHeartbeatDuration))
                                         && (0 !in bufferHeartbeat ==> t.bufferHeartbeatTable[0] == MinBufferHeartbeatDuration)
  {
    SetBufferHeartbeat(SetHeartbeat(New(sessionId, props), heartbeat), bufferHeartbeat)
  }

  /** Starts session timing at `now` unless it has already started. */
  function LazyStart(t: Tracker, now: int): (r: Tracker)
    ensures t.startSessionTime != 0 ==> r == t
    ensures t.startSessionTime == 0 ==> r == t.(startSessionTime := now)
    ensures r.startSessionTime != 0 || now == 0
  {
    t.(startSessionTime := StartOf(t, now))
  }

  /** Recomputes the event duration from the clock and folds it into the session duration. */
  function UpdateDuration(t: Tracker, now: int): (r: Tracker)
    ensures r.sessionDuration == now - t.startSessionTime
    ensures r.sessionDuration == t.sessionDuration + r.eventDuration
    ensures r == t.(eventDuration := r.eventDuration, sessionDuration := r.sessionDuration)
  {
    var d := now - t.startSessionTime - t.sessionDuration;
    t.(eventDuration := d, sessionDuration := t.sessionDuration + d)
  }

  /** Cancels the pending heartbeat, if any. */
  function StopHeartbeatTimer(t: Tracker): (r: Tracker)
    ensures r.timer == None
    ensures t.timer == None ==> r == t
    ensures r.(timer := t.timer) == t
  {
    if t.timer == None then t else t.(timer := None)
  }

  /** The next interval for a heartbeat of kind `k`, counted from `origin`. */
  function NextInterval(t: Tracker, k: Kind, origin: int, now: int): (s: int)
    ensures Valid(t) ==> s >= Floor(k)
  {
    match k
    case PlayBeat => Interval(t.heartbeatTable, MinHeartbeatDuration, origin, now)
    case _ => Interval(t.bufferHeartbeatTable, MinBufferHeartbeatDuration, origin, now)
  }

  /**
    `e` is the event named `name` built from `t`, and `after` the tracker once it is built:
    the inherited properties, the session identity, with options the cursors, duration and
    preceding event name, and the caller's extras over all of them; only a position-bearing
    event becomes the previous event.
   */
  predicate BuiltFrom(t: Tracker, name: string, withOptions: bool, extra: Props, e: Event, after: Tracker)
  {
    && e.name == name
    && Carries(e, t, extra, withOptions)
    && (withOptions ==> Reports(e, extra, t.previousCursor, t.currentCursor, t.eventDuration, t.previousEvent))
    && after == (if withOptions then t.(previousEvent := name) else t)
  }

  /**
    Every event carries exactly the inherited properties of `t`, its session identity, the
    caller's extras and, with options, the four position keys; the extras override every
    other key and every other inherited value is kept.
   */
  predicate Carries(e: Event, t: Tracker, extra: Props, withOptions: bool)
  {
    && e.props.Keys == t.props.Keys + {"session_id"} + extra.Keys + (if withOptions then OptionKeys else {})
    && (forall k :: k in extra ==> e.props[k] == extra[k])
    && Shows(e, extra, "session_id", IntV(t.sessionId))
    && (forall k :: k in t.props && k !in extra && k != "session_id" && (withOptions ==> k !in OptionKeys) ==> e.props[k] == t.props[k])
  }

  /** The events of a step report the time it added to the session duration, given no "duration" key is supplied from outside. */
  predicate AccrualReported(t: Tracker, extra: Props, r: Step)
  {
    "duration" !in t.props && "duration" !in extra ==> ReportsAccrual(t, r)
  }

  /** Builds an event; position-bearing events record the preceding event name and become it. */
  function CreateEvent(t: Tracker, name: string, withOptions: bool, extra: Props): (b: Built)
    ensures BuiltFrom(t, name, withOptions, extra, b.event, b.t)
  {
    var located :=
      if withOptions then
        t.props["previous_position" := IntV(t.previousCursor)]["position" := IntV(t.currentCursor)]
               ["duration" := IntV(t.eventDuration)]["previous_event" := StrV(t.previousEvent)]
      else t.props;
    var props := located["session_id" := IntV(t.sessionId)] + extra;
    Built(if withOptions then t.(previousEvent := name) else t, Event(name, props))
  }

  /** Builds one event and emits it. */
  function Emit(t: Tracker, name: string, withOptions: bool, extra: Props): (r: Step)
    ensures |r.emitted| == 1 && BuiltFrom(t, name, withOptions, extra, r.emitted[0], r.t)
  {
    var b := CreateEvent(t, name, withOptions, extra);
    Step(b.t, [b.event])
  }

  /** Play heartbeat: while playing, advance the cursor by the elapsed time and re-arm from the play table. */
  function Heartbeat(t: Tracker, now: int, extra: Props): (r: Step)
    ensures !t.isPlaying ==> r.emitted == [] && r.t == t.(startSessionTime := StartOf(t, now))
    ensures t.isPlaying ==> && SameConfig(t, r.t) && Accrued(t, r.t, now)
                            && r.t.isPlaying && r.t.bufferTime == t.bufferTime
                            && r.t.previousCursor == t.currentCursor
                            && r.t.currentCursor == t.currentCursor + r.t.eventDuration
                            && r.t.timer == Some(Timer(PlayBeat, Interval(t.heartbeatTable, MinHeartbeatDuration, StartOf(t, now), now)))
                            && r.t.previousEvent == "av.heartbeat"
                            && |r.emitted| == 1 && r.emitted[0].name == "av.heartbeat"
                            && Reports(r.emitted[0], extra, t.currentCursor, r.t.currentCursor, r.t.eventDuration, t.previousEvent)
                            && Carries(r.emitted[0], t, extra, true)
    ensures Valid(t) ==> Valid(r.t)
    ensures AccrualReported(t, extra, r)
  {
    var t0 := LazyStart(t, now);
    if !t0.isPlaying then Step(t0, [])
    else
      var t1 := UpdateDuration(t0, now);
      var t2 := t1.(previousCursor := t1.currentCursor, currentCursor := t1.currentCursor + t1.eventDuration);
      var t3 := StopHeartbeatTimer(t2);
      var t4 := t3.(timer := Some(Timer(PlayBeat, NextInterval(t3, PlayBeat, t3.startSessionTime, now))));
      Emit(t4, "av.heartbeat", true, extra)
  }

  /** Shared body of the buffer and rebuffer heartbeats after their guards. */
  function BufferBeatBody(t: Tracker, now: int, k: Kind, name: string, extra: Props): (r: Step)
    requires k != PlayBeat
    ensures SameConfig(t, r.t) && r.t.isPlaying == t.isPlaying
    ensures r.t.bufferTime == (if t.bufferTime == 0 then now else t.bufferTime)
    ensures r.t.timer == Some(Timer(k, Interval(t.bufferHeartbeatTable, MinBufferHeartbeatDuration, r.t.bufferTime, now)))
    ensures r.t.previousEvent == name && |r.emitted| == 1 && r.emitted[0].name == name
    ensures Reports(r.emitted[0], extra, t.previousCursor, t.currentCursor, t.eventDuration, t.previousEvent)
    ensures Carries(r.emitted[0], t, extra, true)
    ensures r.t.eventDuration == t.eventDuration && r.t.sessionDuration == t.sessionDuration
    ensures r.t.startSessionTime == t.startSessionTime
    ensures r.t.previousCursor == t.previousCursor && r.t.currentCursor == t.currentCursor
  {
    var t1 := StopHeartbeatTimer(t);
    var t2 := t1.(bufferTime := if t1.bufferTime == 0 then now else t1.bufferTime);
    var t3 := t2.(timer := Some(Timer(k, NextInterval(t2, k, t2.bufferTime, now))));
    Emit(t3, name, true, extra)
  }

  /** Buffer heartbeat: while not playing, accrue and re-arm from the buffer table. */
  function BufferHeartbeat(t: Tracker, now: int, extra: Props): (r: Step)
    ensures t.isPlaying ==> r.emitted == [] && r.t == t.(startSessionTime := StartOf(t, now))
    ensures !t.isPlaying ==> && SameConfig(t, r.t) && Accrued(t, r.t, now) && !r.t.isPlaying
                             && r.t.previousCursor == t.previousCursor && r.t.currentCursor == t.currentCursor
                             && r.t.bufferTime == (if t.bufferTime == 0 then now else t.bufferTime)
                             && r.t.timer == Some(Timer(BufferBeat, Interval(t.bufferHeartbeatTable, MinBufferHeartbeatDuration, r.t.bufferTime, now)))
                             && r.t.previousEvent == "av.buffer.heartbeat"
                             && |r.emitted| == 1 && r.emitted[0].name == "av.buffer.heartbeat"
                             && Reports(r.emitted[0], extra, t.previousCursor, t.currentCursor, r.t.eventDuration, t.previousEvent)
                             && Carries(r.emitted[0], t, extra, true)
    ensures Valid(t) ==> Valid(r.t)
    ensures AccrualReported(t, extra, r)
  {
    var t0 := LazyStart(t, now);
    if t0.isPlaying then Step(t0, [])
    else BufferBeatBody(UpdateDuration(t0, now), now, BufferBeat, "av.buffer.heartbeat", extra)
  }

  /** Rebuffer heartbeat: while playing, accrue without moving the cursor and re-arm from the buffer table. */
  function RebufferHeartbeat(t: Tracker, now: int, extra: Props): (r: Step)
    ensures !t.isPlaying ==> r.emitted == [] && r.t == t.(startSessionTime := StartOf(t, now))
    ensures t.isPlaying ==> && SameConfig(t, r.t) && Accrued(t, r.t, now) && r.t.isPlaying
                            && r.t.previousCursor == t.currentCursor && r.t.currentCursor == t.currentCursor
                            && r.t.bufferTime == (if t.bufferTime == 0 then now else t.bufferTime)
                            && r.t.timer == Some(Timer(RebufferBeat, Interval(t.bufferHeartbeatTable, MinBufferHeartbeatDuration, r.t.bufferTime, now)))
                            && r.t.previousEvent == "av.rebuffer.heartbeat"
                            && |r.emitted| == 1 && r.emitted[0].name == "av.rebuffer.heartbeat"
                            && Reports(r.emitted[0], extra, t.currentCursor, t.currentCursor, r.t.eventDuration, t.previousEvent)
                            && Carries(r.emitted[0], t, extra, true)
    ensures Valid(t) ==> Valid(r.t)
    ensures AccrualReported(t, extra, r)
  {
    var t0 := LazyStart(t, now);
    if !t0.isPlaying then Step(t0, [])
    else
      var t1 := UpdateDuration(t0, now);
      BufferBeatBody(t1.(previousCursor := t1.currentCursor), now, RebufferBeat, "av.rebuffer.heartbeat", extra)
  }

  /** Play intent: cursors to `position`, no duration, not yet playing, no pending heartbeat. */
  function Play(t: Tracker, now: int, position: int, extra: Props): (r: Step)
    ensures SameConfig(t, r.t)
    ensures r.t.startSessionTime == StartOf(t, now) && r.t.sessionDuration == t.sessionDuration
    ensures r.t.previousCursor == position && r.t.currentCursor == position && r.t.eventDuration == 0
    ensures !r.t.isPlaying && r.t.timer == None && r.t.bufferTime == t.bufferTime
    ensures r.t.previousEvent == "av.play" && |r.emitted| == 1 && r.emitted[0].name == "av.play"
    ensures Reports(r.emitted[0], extra, position, position, 0, t.previousEvent)
    ensures Carries(r.emitted[0], t, extra, true)
    ensures Valid(t) ==> Valid(r.t)
    ensures AccrualReported(t, extra, r)
  {
    var t1 := LazyStart(t, now).(eventDuration := 0, previousCursor := position, currentCursor := position, isPlaying := false);
    Emit(StopHeartbeatTimer(t1), "av.play", true, extra)
  }

  /** Buffering begins: accrue, move to `position`, and arm a floor-interval buffer or rebuffer heartbeat. */
  function BufferStart(t: Tracker, now: int, position: int, extra: Props): (r: Step)
    ensures SameConfig(t, r.t) && Accrued(t, r.t, now)
    ensures r.t.isPlaying == t.isPlaying && r.t.bufferTime == now
    ensures r.t.previousCursor == t.currentCursor && r.t.currentCursor == position
    ensures r.t.timer == Some(Timer(if t.isPlaying then RebufferBeat else BufferBeat, MinBufferHeartbeatDuration))
    ensures |r.emitted| == 1 && r.emitted[0].name == (if t.isPlaying then "av.rebuffer.start" else "av.buffer.start")
    ensures r.t.previousEvent == r.emitted[0].name
    ensures Reports(r.emitted[0], extra, t.currentCursor, position, r.t.eventDuration, t.previousEvent)
    ensures Carries(r.emitted[0], t, extra, true)
    ensures Valid(t) ==> Valid(r.t)
    ensures AccrualReported(t, extra, r)
  {
    var t1 := UpdateDuration(LazyStart(t, now), now);
    var t2 := t1.(previousCursor := t1.currentCursor, currentCursor := position, bufferTime := now);
    var t3 := StopHeartbeatTimer(t2);
    var kind := if t3.isPlaying then RebufferBeat else BufferBeat;
    var name := if t3.isPlaying then "av.rebuffer.start" else "av.buffer.start";
    var t4 := t3.(timer := Some(Timer(kind, MinBufferHeartbeatDuration)));
    var r := Emit(t4, name, true, extra);
    assert r.t == t4.(previousEvent := name);
    r
  }

  /** Shared body of start and resume after the cursors are placed: playing, with one floor-interval play heartbeat. */
  function StartPlaying(t: Tracker, name: string, extra: Props): (r: Step)
    ensures SameConfig(t, r.t) && r.t.isPlaying
    ensures r.t.timer == Some(Timer(PlayBeat, MinHeartbeatDuration))
    ensures |r.emitted| == 1 && BuiltFrom(t.(isPlaying := true, timer := r.t.timer), name, true, extra, r.emitted[0], r.t)
  {
    var t1 := StopHeartbeatTimer(t.(isPlaying := true));
    Emit(t1.(timer := Some(Timer(PlayBeat, MinHeartbeatDuration))), name, true, extra)
  }

  /** Playback starts at `position`. */
  function PlaybackStart(t: Tracker, now: int, position: int, extra: Props): (r: Step)
    ensures SameConfig(t, r.t) && Accrued(t, r.t, now) && r.t.bufferTime == t.bufferTime
    ensures r.t.isPlaying && r.t.timer == Some(Timer(PlayBeat, MinHeartbeatDuration))
    ensures r.t.previousCursor == position && r.t.currentCursor == position
    ensures r.t.previousEvent == "av.start" && |r.emitted| == 1 && r.emitted[0].name == "av.start"
    ensures Reports(r.emitted[0], extra, position, position, r.t.eventDuration, t.previousEvent)
    ensures Carries(r.emitted[0], t, extra, true)
    ensures Valid(t) ==> Valid(r.t)
    ensures AccrualReported(t, extra, r)
  {
    var t1 := UpdateDuration(LazyStart(t, now), now);
    StartPlaying(t1.(previousCursor := position, currentCursor := position), "av.start", extra)
  }

  /** Playback resumes at `position`; the previous cursor is the position playback had reached. */
  function PlaybackResumed(t: Tracker, now: int, position: int, extra: Props): (r: Step)
    ensures SameConfig(t, r.t) && Accrued(t, r.t, now) && r.t.bufferTime == t.bufferTime
    ensures r.t.isPlaying && r.t.timer == Some(Timer(PlayBeat, MinHeartbeatDuration))
    ensures r.t.previousCursor == t.currentCursor && r.t.currentCursor == position
    ensures r.t.previousEvent == "av.resume" && |r.emitted| == 1 && r.emitted[0].name == "av.resume"
    ensures Reports(r.emitted[0], extra, t.currentCursor, position, r.t.eventDuration, t.previousEvent)
    ensures Carries(r.emitted[0], t, extra, true)
    ensures Valid(t) ==> Valid(r.t)
    ensures AccrualReported(t, extra, r)
  {
    var t1 := UpdateDuration(LazyStart(t, now), now);
    StartPlaying(t1.(previousCursor := t1.currentCursor, currentCursor := position), "av.resume", extra)
  }

  /** Playback pauses at `position`; no heartbeat stays pending. */
  function PlaybackPaused(t: Tracker, now: int, position: int, extra: Props): (r: Step)
    ensures SameConfig(t, r.t) && Accrued(t, r.t, now) && r.t.bufferTime == t.bufferTime
    ensures !r.t.isPlaying && r.t.timer == None
    ensures r.t.previousCursor == t.currentCursor && r.t.currentCursor == position
    ensures r.t.previousEvent == "av.pause" && |r.emitted| == 1 && r.emitted[0].name == "av.pause"
    ensures Reports(r.emitted[0], extra, t.currentCursor, position, r.t.eventDuration, t.previousEvent)
    ensures Carries(r.emitted[0], t, extra, true)
    ensures Valid(t) ==> Valid(r.t)
    ensures AccrualReported(t, extra, r)
  {
    var t1 := UpdateDuration(LazyStart(t, now), now);
    var t2 := t1.(previousCursor := t1.currentCursor, currentCursor := position, isPlaying := false);
    Emit(StopHeartbeatTimer(t2), "av.pause", true, extra)
  }

  /** Returns the tracker to a fresh session under a new identity; configuration persists. */
  function ResetState(t: Tracker): (r: Tracker)
    ensures r.sessionId > t.sessionId
    ensures r.previousEvent == "" && r.previousCursor == 0 && r.currentCursor == 0 && r.eventDuration == 0
    ensures r.heartbeatTable == t.heartbeatTable && r.bufferHeartbeatTable == t.bufferHeartbeatTable
    ensures r.timer == t.timer && r.isPlaying == t.isPlaying && r.props == t.props
    ensures r.autoHeartbeat == t.autoHeartbeat && r.autoBufferHeartbeat == t.autoBufferHeartbeat
    ensures r.startSessionTime == t.startSessionTime && r.sessionDuration == t.sessionDuration && r.bufferTime == t.bufferTime
  {
    t.(sessionId := t.sessionId + 1, previousEvent := "", previousCursor := 0, currentCursor := 0, eventDuration := 0)
  }

  /** Playback stops at `position`: the stop event is reported, then the whole session is reset. */
  function PlaybackStopped(t: Tracker, now: int, position: int, extra: Props): (r: Step)
    ensures |r.emitted| == 1 && r.emitted[0].name == "av.stop"
    ensures Reports(r.emitted[0], extra, t.currentCursor, position, now - StartOf(t, now) - t.sessionDuration, t.previousEvent)
    ensures Carries(r.emitted[0], t, extra, true)
    ensures r.t.startSessionTime == 0 && r.t.sessionDuration == 0 && r.t.bufferTime == 0 && r.t.eventDuration == 0
    ensures r.t.previousCursor == 0 && r.t.currentCursor == 0 && r.t.previousEvent == ""
    ensures !r.t.isPlaying && r.t.timer == None
    ensures r.t.sessionId > t.sessionId
    ensures r.t.heartbeatTable == t.heartbeatTable && r.t.bufferHeartbeatTable == t.bufferHeartbeatTable
    ensures r.t.autoHeartbeat == t.autoHeartbeat && r.t.autoBufferHeartbeat == t.autoBufferHeartbeat
    ensures r.t.props == t.props
    ensures Valid(t) ==> Valid(r.t)
  {
    var t1 := UpdateDuration(LazyStart(t, now), now);
    var t2 := t1.(previousCursor := t1.currentCursor, currentCursor := position, isPlaying := false);
    var t3 := StopHeartbeatTimer(t2).(startSessionTime := 0, sessionDuration := 0, bufferTime := 0);
    var s := Emit(t3, "av.stop", true, extra);
    Step(ResetState(s.t), s.emitted)
  }

  /** Seek start from `oldPosition`: accrues while playing, otherwise reports no duration. */
  function SeekStart(t: Tracker, now: int, oldPosition: int, extra: Props): (r: Step)
    ensures SameConfig(t, r.t) && r.t.isPlaying == t.isPlaying && r.t.timer == t.timer && r.t.bufferTime == t.bufferTime
    ensures t.isPlaying ==> Accrued(t, r.t, now)
    ensures !t.isPlaying ==> r.t.eventDuration == 0 && r.t.sessionDuration == t.sessionDuration && r.t.startSessionTime == t.startSessionTime
    ensures r.t.previousCursor == t.currentCursor && r.t.currentCursor == oldPosition
    ensures r.t.previousEvent == "av.seek.start" && |r.emitted| == 1 && r.emitted[0].name == "av.seek.start"
    ensures Reports(r.emitted[0], extra, t.currentCursor, oldPosition, r.t.eventDuration, t.previousEvent)
    ensures Carries(r.emitted[0], t, extra, true)
    ensures Valid(t) ==> Valid(r.t)
    ensures AccrualReported(t, extra, r)
  {
    var t0 := if t.isPlaying then LazyStart(t, now) else t;
    var t1 := t0.(previousCursor := t0.currentCursor, currentCursor := oldPosition);
    var t2 := if t1.isPlaying then UpdateDuration(t1, now) else t1.(eventDuration := 0);
    Emit(t2, "av.seek.start", true, extra)
  }

  datatype Direction = Backward | Forward

  function DirectionEvent(d: Direction): string
  {
    match d
    case Backward => "av.backward"
    case Forward => "av.forward"
  }

  /** A directional seek: the seek start from `oldPosition`, then the jump to `newPosition` with no duration. */
  function ProcessSeek(t: Tracker, now: int, d: Direction, oldPosition: int, newPosition: int, extra: Props): (r: Step)
    ensures SameConfig(t, r.t) && r.t.isPlaying == t.isPlaying && r.t.timer == t.timer && r.t.bufferTime == t.bufferTime
    ensures t.isPlaying ==> r.t.startSessionTime == StartOf(t, now) && r.t.sessionDuration == now - r.t.startSessionTime
    ensures !t.isPlaying ==> r.t.sessionDuration == t.sessionDuration && r.t.startSessionTime == t.startSessionTime
    ensures r.t.previousCursor == oldPosition && r.t.currentCursor == newPosition && r.t.eventDuration == 0
    ensures r.t.previousEvent == DirectionEvent(d)
    ensures |r.emitted| == 2 && r.emitted[0].name == "av.seek.start" && r.emitted[1].name == DirectionEvent(d)
    ensures Shows(r.emitted[0], extra, "previous_position", IntV(t.currentCursor)) && Shows(r.emitted[0], extra, "position", IntV(oldPosition))
    ensures Shows(r.emitted[0], extra, "previous_event", StrV(t.previousEvent))
    ensures Shows(r.emitted[0], extra, "duration", IntV(r.t.sessionDuration - t.sessionDuration))
    ensures Reports(r.emitted[1], extra, oldPosition, newPosition, 0, "av.seek.start")
    ensures Carries(r.emitted[0], t, extra, true) && Carries(r.emitted[1], t, extra, true)
    ensures Valid(t) ==> Valid(r.t)
    ensures AccrualReported(t, extra, r)
  {
    var t0 := if t.isPlaying then LazyStart(t, now) else t;
    var s := SeekStart(t0, now, oldPosition, extra);
    var t1 := s.t.(eventDuration := 0, previousCursor := oldPosition, currentCursor := newPosition);
    var jump := Emit(t1, DirectionEvent(d), true, extra);
    TotalDurationOfTwo(s.emitted[0], jump.emitted[0]);
    assert s.emitted + jump.emitted == [s.emitted[0], jump.emitted[0]];
    Step(jump.t, s.emitted + jump.emitted)
  }

  function SeekBackward(t: Tracker, now: int, oldPosition: int, newPosition: int, extra: Props): (r: Step)
    ensures |r.emitted| == 2 && r.emitted[1].name == "av.backward"
    ensures Reports(r.emitted[1], extra, oldPosition, newPosition, 0, "av.seek.start")
    ensures Carries(r.emitted[0], t, extra, true) && Carries(r.emitted[1], t, extra, true)
    ensures r.t.previousCursor == oldPosition && r.t.currentCursor == newPosition
    ensures Valid(t) ==> Valid(r.t)
    ensures AccrualReported(t, extra, r)
  {
    ProcessSeek(t, now, Backward, oldPosition, newPosition, extra)
  }

  function SeekForward(t: Tracker, now: int, oldPosition: int, newPosition: int, extra: Props): (r: Step)
    ensures |r.emitted| == 2 && r.emitted[1].name == "av.forward"
    ensures Reports(r.emitted[1], extra, oldPosition, newPosition, 0, "av.seek.start")
    ensures Carries(r.emitted[0], t, extra, true) && Carries(r.emitted[1], t, extra, true)
    ensures r.t.previousCursor == oldPosition && r.t.currentCursor == newPosition
    ensures Valid(t) ==> Valid(r.t)
    ensures AccrualReported(t, extra, r)
  {
    ProcessSeek(t, now, Forward, oldPosition, newPosition, extra)
  }

  /** A seek is backward exactly when it moves to an earlier position. */
  function Seek(t: Tracker, now: int, oldPosition: int, newPosition: int, extra: Props): (r: Step)
    ensures r == ProcessSeek(t, now, if oldPosition > newPosition then Backward else Forward, oldPosition, newPosition, extra)
    ensures |r.emitted| == 2 && r.emitted[0].name == "av.seek.start"
    ensures Shows(r.emitted[0], extra, "position", IntV(oldPosition))
    ensures Carries(r.emitted[0], t, extra, true) && Carries(r.emitted[1], t, extra, true)
    ensures r.t.previousCursor == oldPosition && r.t.currentCursor == newPosition
    ensures r.emitted[1].name == "av.backward" <==> oldPosition > newPosition
    ensures r.emitted[1].name == "av.forward" <==> oldPosition <= newPosition
    ensures Reports(r.emitted[1], extra, oldPosition, newPosition, 0, "av.seek.start")
    ensures Valid(t) ==> Valid(r.t)
    ensures AccrualReported(t, extra, r)
  {
    if oldPosition > newPosition then SeekBackward(t, now, oldPosition, newPosition, extra)
    else SeekForward(t, now, oldPosition, newPosition, extra)
  }

  /** The events that carry only the session identity and the caller's properties. */
  datatype Notice = AdClick | AdSkip | Display | Close | Volume | SubtitleOn | SubtitleOff
                  | FullscreenOn | FullscreenOff | Quality | Speed | Share

  function NoticeEvent(n: Notice): string
  {
    match n
    case AdClick => "av.ad.click"
    case AdSkip => "av.ad.skip"
    case Display => "av.display"
    case Close => "av.close"
    case Volume => "av.volume"
    case SubtitleOn => "av.subtitle.on"
    case SubtitleOff => "av.subtitle.off"
    case FullscreenOn => "av.fullscreen.on"
    case FullscreenOff => "av.fullscreen.off"
    case Quality => "av.quality"
    case Speed => "av.speed"
    case Share => "av.share"
  }

  /** A fire-and-forget event: nothing in the tracker changes and no position fields are added. */
  function Notify(t: Tracker, n: Notice, extra: Props): (r: Step)
    ensures r.t == t
    ensures |r.emitted| == 1 && r.emitted[0].name == NoticeEvent(n)
    ensures Carries(r.emitted[0], t, extra, false)
    ensures Valid(t) ==> Valid(r.t)
    ensures AccrualReported(t, extra, r)
  {
    Emit(t, NoticeEvent(n), false, extra)
  }

  /** A player error: the message joins the inherited properties, then a fire-and-forget event is emitted. */
  function Error(t: Tracker, message: string, extra: Props): (r: Step)
    ensures r.t == t.(props := t.props["error" := StrV(message)])
    ensures |r.emitted| == 1 && r.emitted[0].name == "av.error"
    ensures Shows(r.emitted[0], extra, "error", StrV(message))
    ensures Carries(r.emitted[0], t.(props := t.props["error" := StrV(message)]), extra, false)
    ensures Valid(t) ==> Valid(r.t)
    ensures AccrualReported(t, extra, r)
  {
    Emit(t.(props := t.props["error" := StrV(message)]), "av.error", false, extra)
  }
}

=== FILE: properties.dfy ===
/**
  Properties that relate several calls: the self-extending heartbeat chain,
  the session clock across a pause, session identity across a stop, and the
  dispatcher's defaults.
 */
module Properties {
  import opened Wrappers
  import opened Events
  import opened Schedule
  import opened Media
  import opened Dispatch

  /** A pending heartbeat, when it fires, passes its guard, emits one event and leaves exactly one pending timer of its own kind. */
  lemma PendingTimerFiresAndRearms(t: Tracker, now: int, extra: Props)
    requires Valid(t) && t.timer.Some?
    ensures var r := Apply(t, Call(now, Tick(t.timer.value.kind), extra));
            && |r.emitted| == 1
            && r.t.timer.Some? && r.t.timer.value.kind == t.timer.value.kind
            && r.t.timer.value.seconds >= Floor(t.timer.value.kind)
  {
  }

  /** A heartbeat whose guard fails emits nothing and schedules nothing. */
  lemma IdleHeartbeatIsNoOp(t: Tracker, now: int, extra: Props)
    requires !t.isPlaying
    ensures Heartbeat(t, now, extra).emitted == []
    ensures Heartbeat(t, now, extra).t.timer == t.timer
    ensures RebufferHeartbeat(t, now, extra) == Heartbeat(t, now, extra)
  {
  }

  /** Pausing does not stop the session clock: the next accrual still measures from the session start. */
  lemma PauseDoesNotStopTheClock(t: Tracker, n1: int, n2: int, p1: int, p2: int, x1: Props, x2: Props)
    requires t.startSessionTime != 0
    ensures var paused := PlaybackPaused(t, n1, p1, x1);
            var resumed := PlaybackResumed(paused.t, n2, p2, x2);
            && resumed.t.sessionDuration == n2 - t.startSessionTime
            && resumed.t.eventDuration == n2 - n1
  {
  }

  /** Stopping then playing again reports the two events under different session identities, and the new session has no preceding event. */
  lemma StopThenPlayStartsNewSession(t: Tracker, n1: int, n2: int, p1: int, p2: int, x1: Props, x2: Props)
    requires "session_id" !in x1 && "session_id" !in x2 && "previous_event" !in x2
    ensures var stop := PlaybackStopped(t, n1, p1, x1);
            var play := Play(stop.t, n2, p2, x2);
            && stop.emitted[0].props["session_id"] != play.emitted[0].props["session_id"]
            && play.emitted[0].props["previous_event"] == StrV("")
  {
  }

  /** Starting at 1000 with the default table, a heartbeat advances the cursor by the elapsed wall time and re-arms for 5 seconds. */
  lemma StartThenHeartbeat(t: Tracker, n1: int, n2: int, x1: Props, x2: Props)
    requires t.heartbeatTable == map[0 := 5]
    requires n1 > 0  // an epoch instant; 0 is the "not started" marker
    ensures var started := PlaybackStart(t, n1, 1000, x1);
            var beat := Heartbeat(started.t, n2, x2);
            && beat.t.currentCursor == 1000 + (n2 - n1)
            && beat.t.previousCursor == 1000
            && beat.t.timer == Some(Timer(PlayBeat, 5))
            && |beat.emitted| == 1
  {
  }

  /** A missing or non-integer position behaves as position 0. */
  lemma TrackDefaultsPosition(t: Tracker, now: int, action: string, options: Props, extra: Props)
    requires !("av_position" in options && options["av_position"].IntV?)
    ensures Track(t, now, action, options, extra) == Track(t, now, action, options["av_position" := IntV(0)], extra)
  {
    var defaulted := options["av_position" := IntV(0)];
    assert IntOption(defaulted, "av_position") == IntOption(options, "av_position");
    assert IntOption(defaulted, "av_previous_position") == IntOption(options, "av_previous_position");
    assert StringOption(defaulted, "av_player_error") == StringOption(options, "av_player_error");
  }

  /** A missing or non-integer previous position behaves as previous position 0. */
  lemma TrackDefaultsPreviousPosition(t: Tracker, now: int, action: string, options: Props, extra: Props)
    requires !("av_previous_position" in options && options["av_previous_position"].IntV?)
    ensures Track(t, now, action, options, extra) == Track(t, now, action, options["av_previous_position" := IntV(0)], extra)
  {
    var defaulted := options["av_previous_position" := IntV(0)];
    assert IntOption(defaulted, "av_position") == IntOption(options, "av_position");
    assert IntOption(defaulted, "av_previous_position") == IntOption(options, "av_previous_position");
    assert StringOption(defaulted, "av_player_error") == StringOption(options, "av_player_error");
  }

  /** A missing or non-string error message behaves as the empty message. */
  lemma TrackDefaultsError(t: Tracker, now: int, action: string, options: Props, extra: Props)
    requires !("av_player_error" in options && options["av_player_error"].StrV?)
    ensures Track(t, now, action, options, extra) == Track(t, now, action, options["av_player_error" := StrV("")], extra)
  {
    var defaulted := options["av_player_error" := StrV("")];
    assert IntOption(defaulted, "av_position") == IntOption(options, "av_position");
    assert IntOption(defaulted, "av_previous_position") == IntOption(options, "av_previous_position");
    assert StringOption(defaulted, "av_player_error") == StringOption(options, "av_player_error");
  }

  /** A lone seek start is placed at the previous position and ignores `av_position`. */
  lemma TrackSeekStartIgnoresPosition(t: Tracker, now: int, options: Props, extra: Props, p: int)
    ensures Track(t, now, "av.seek.start", options["av_position" := IntV(p)], extra) == Track(t, now, "av.seek.start", options, extra)
    ensures Track(t, now, "av.seek.start", options, extra).t.currentCursor == IntOption(options, "av_previous_position")
  {
  }

  /** The dispatcher does not route a rebuffer start: it becomes a bare event and the tracker is unchanged. */
  lemma TrackRebufferStartIsBare(t: Tracker, now: int, options: Props, extra: Props)
    ensures Track(t, now, "av.rebuffer.start", options, extra).t == t
    ensures Track(t, now, "av.rebuffer.start", options, extra).emitted[0].props.Keys == t.props.Keys + {"session_id"} + extra.Keys
  {
  }

  /** Each heartbeat name reaches the callback of its own kind. */
  lemma TrackRoutesHeartbeats(t: Tracker, now: int, options: Props, extra: Props)
    ensures Track(t, now, "av.heartbeat", options, extra) == Heartbeat(t, now, extra)
    ensures Track(t, now, "av.buffer.heartbeat", options, extra) == BufferHeartbeat(t, now, extra)
    ensures Track(t, now, "av.rebuffer.heartbeat", options, extra) == RebufferHeartbeat(t, now, extra)
  {
  }

  /** Play, buffer start and start reach their own operations at `av_position`. */
  lemma TrackRoutesLifecycle(t: Tracker, now: int, options: Props, extra: Props)
    ensures var position := IntOption(options, "av_position");
            && Track(t, now, "av.play", options, extra) == Play(t, now, position, extra)
            && Track(t, now, "av.buffer.start", options, extra) == BufferStart(t, now, position, extra)
            && Track(t, now, "av.start", options, extra) == PlaybackStart(t, now, position, extra)
  {
  }

  /** Resume, pause and stop reach their own operations at `av_position`. */
  lemma TrackRoutesTransitions(t: Tracker, now: int, options: Props, extra: Props)
    ensures var position := IntOption(options, "av_position");
            && Track(t, now, "av.resume", options, extra) == PlaybackResumed(t, now, position, extra)
            && Track(t, now, "av.pause", options, extra) == PlaybackPaused(t, now, position, extra)
            && Track(t, now, "av.stop", options, extra) == PlaybackStopped(t, now, position, extra)
  {
  }

  /** The directional seek names go from `av_previous_position` to `av_position`. */
  lemma TrackRoutesSeeks(t: Tracker, now: int, options: Props, extra: Props)
    ensures var position, previous := IntOption(options, "av_position"), IntOption(options, "av_previous_position");
            && Track(t, now, "av.backward", options, extra) == SeekBackward(t, now, previous, position, extra)
            && Track(t, now, "av.forward", options, extra) == SeekForward(t, now, previous, position, extra)
  {
  }

  /** A lone seek start begins at `av_previous_position`. */
  lemma TrackRoutesSeekStart(t: Tracker, now: int, options: Props, extra: Props)
    ensures Track(t, now, "av.seek.start", options, extra) == SeekStart(t, now, IntOption(options, "av_previous_position"), extra)
  {
  }

  /** The error name reports `av_player_error`. */
  lemma TrackRoutesError(t: Tracker, now: int, options: Props, extra: Props)
    ensures Track(t, now, "av.error", options, extra) == Error(t, StringOption(options, "av_player_error"), extra)
  {
  }

  /** A run that contains a session-ending call ends under a different session identity. */
  lemma StopRenewsSession(t: Tracker, calls: seq<Call>, i: nat)
    requires i < |calls| && Stops(calls[i].command)
    ensures Run(t, calls).t.sessionId != t.sessionId
  {
    StopsAreCounted(calls, i);
  }
}

=== FILE: schedule.dfy ===
/**
  The heartbeat scheduler's data: the minute-offset interval tables, the
  truncating minute computation and the single pending-timer slot.
 */
module Schedule {

  /** Floor of the play heartbeat interval, in seconds. */
  const MinHeartbeatDuration: int := 5
  /** Floor of the buffer and rebuffer heartbeat interval, in seconds. */
  const MinBufferHeartbeatDuration: int := 1
  const MillisPerMinute: int := 60000

  /** Which callback a pending timer will invoke. */
  datatype Kind = PlayBeat | BufferBeat | RebufferBeat

  /** A scheduled one-shot callback of a kind, after an interval in seconds. */
  datatype Timer = Timer(kind: Kind, seconds: int)

  /** The interval floor that applies to a timer kind. */
  function Floor(k: Kind): int
  {
    match k
    case PlayBeat => MinHeartbeatDuration
    case BufferBeat => MinBufferHeartbeatDuration
    case RebufferBeat => MinBufferHeartbeatDuration
  }

  function Max(a: int, b: int): int
  {
    if a < b then b else a
  }

  /** A configured table: empty (never configured) or holding key 0, every entry at least the floor. */
  predicate WellFormed(table: map<int, int>, floor: int)
  {
    && (table == map[] || 0 in table)
    && forall k :: k in table ==> table[k] >= floor
  }

  /** The table a non-empty configuration produces: entries raised to the floor, key 0 guaranteed. */
  function Clamp(input: map<int, int>, floor: int): (r: map<int, int>)
    ensures r.Keys == input.Keys + {0}
    ensures forall k :: k in input ==> r[k] == Max(input[k], floor)
    ensures 0 !in input ==> r[0] == floor
    ensures WellFormed(r, floor)
  {
    var raised := map k | k in input :: if input[k] < floor then floor else input[k];
    if 0 in raised then raised else raised[0 := floor]
  }

  /** Configuring with an already configured table changes nothing. */
  lemma ClampIdempotent(input: map<int, int>, floor: int)
    ensures Clamp(Clamp(input, floor), floor) == Clamp(input, floor)
  {
  }

  /** The entry-by-entry loop that fills a table from its configuration. */
  method ClampLoop(input: map<int, int>, floor: int) returns (r: map<int, int>)
    ensures r == Clamp(input, floor)
  {
    r := map[];
    var pending := input.Keys;
    while exists k :: k in pending
      invariant pending <= input.Keys
      invariant r.Keys == input.Keys - pending
      invariant forall k :: k in r ==> r[k] == Max(input[k], floor)
      decreases pending
    {
      // the order in which a dictionary is visited is left open
      var k :| k in pending;
      if input[k] < floor {
        r := r[k := floor];
      } else {
        r := r[k := input[k]];
      }
      pending := pending - {k};
    }
    if 0 !in r {
      r := r[0 := floor];
    }
    var expected := Clamp(input, floor);
    assert r.Keys == expected.Keys;
    assert forall k :: k in r ==> r[k] == expected[k];
  }

  /** Whole minutes between two instants, rounding toward zero as Swift's integer division does. */
  function MinutesElapsed(origin: int, now: int): (m: int)
    ensures now - origin >= 0 ==> 0 <= m && m * MillisPerMinute <= now - origin < m * MillisPerMinute + MillisPerMinute
    ensures now - origin < 0 ==> m <= 0 && m * MillisPerMinute - MillisPerMinute < now - origin <= m * MillisPerMinute
  {
    var x := now - origin;
    if x >= 0 then x / MillisPerMinute else -((-x) / MillisPerMinute)
  }

  /** The next heartbeat interval: the table entry for the exact elapsed minute, else the floor. */
  function Interval(table: map<int, int>, floor: int, origin: int, now: int): (s: int)
    ensures MinutesElapsed(origin, now) in table ==> s == table[MinutesElapsed(origin, now)]
    ensures MinutesElapsed(origin, now) !in table ==> s == floor
    ensures WellFormed(table, floor) ==> s >= floor
  {
    var m := MinutesElapsed(origin, now);
    if m in table then table[m] else floor
  }

  /** Only the exact configured minute offsets change the interval; every other elapsed minute falls back to the floor. */
  lemma IntervalFallback(table: map<int, int>, floor: int, origin: int, now: int)
    requires WellFormed(table, floor)
    requires Interval(table, floor, origin, now) != floor
    ensures MinutesElapsed(origin, now) in table
    ensures table[MinutesElapsed(origin, now)] > floor
  {
  }
}

=== FILE: wrappers.dfy ===
/** The Some/None datatype used for the tracker's single pending-timer slot. */
module Wrappers {

  datatype Option<+T> = None | Some(value: T)

}
